=== FILE: README.md ===
# cv-npr in Dafny

cv-npr is a browser app that applies non-photorealistic filters to an image.
The user loads a picture through the load panel: a file dialog, a dropped or
pasted file, the clipboard, or one of the bundled examples. The filter panel
then shows it on a working canvas beside a hidden original canvas. Eight
OpenCV filters are offered:

- detail enhancement
- edge-preserving filter
- pencil sketch
- stylization
- oil painting
- anisotropic diffusion
- colour map
- mosaic

Each filter has range inputs, and a neutral setting of those inputs is
meant to show the original picture unchanged (but see "## Findings"). The page and its service worker both choose
one of four OpenCV.js builds from what the host's WebAssembly supports. The
service worker caches a manifest of URLs for offline use, deletes caches of
older releases when it is activated, and answers each fetch from the cache
when it can.

The project has seven modules:

- `Viewport` covers `getActualRect`, the letterbox rectangle of an image inside its container.
- `MediaTypes` covers the media-type checks of `loadFile` and `loadClipboardImage`, and the thumbnail-to-full-size URL rewrite.
- `Imaging` holds rasters and the canvas's source-over `drawImage`. It also holds the vision library as a value of uninterpreted functions. All the model assumes about the library is that each operation keeps the size of its input and that `resize` yields the size it is asked for.
- `Filters` holds the eight filters, their inputs and neutral conditions, the parameters they derive (the oil-painting kernel and the mosaic's reduced size), and the library pipeline each runs.
- `Panels` holds the load panel and the filter panel as classes with the state their handlers update. The `setTimeout(…, 0)` callbacks become a queue of deferred tasks.
- `OpenCVBuild` holds the build decision table, which appears both in the page script (src/index.js:42-55) and in the service worker (src/en/sw.js:21-34), and the service worker's `.wasm` path derivation (src/en/sw.js:39).
- `ServiceWorker` holds the manifest as a class whose list `addOpenCVPaths` extends. Install, activate and fetch are functions over a value that stands for the origin's cache storage.

Two behaviours of the source worth knowing:

- `loadFile` returns silently for a non-image media type; it does not alert (src/index.js:205).
- The clipboard scan raises the SVG alert for every SVG type it passes before the first other image type, not only when SVG comes first (src/index.js:218-227).

## Model

| member | source | states |
|---|---|---|
| Viewport.ActualRect | src/index.js:109-132 | The rectangle fits inside the container, has the natural aspect ratio and is centred. It fills the container's height when the container is relatively wider, and its width otherwise. |
| Viewport.ActualRectIsLargestFit | src/index.js:115-131 | No scaled copy of the image at its aspect ratio that fits the container is larger than the returned rectangle. |
| MediaTypes.ClassifyFile | src/index.js:204-212 | A file is loaded iff its type starts with `image/` and is not SVG. SVG is rejected with an alert. Any other type is ignored. |
| MediaTypes.ClassifyClipboardType | src/index.js:219-221 | A type raises the SVG alert iff it is SVG, is loaded iff it starts with `image/` and is not SVG, and is skipped otherwise. |
| MediaTypes.ClipboardAgreesWithFile | src/index.js:218-225 | The clipboard checks, made in the opposite order, load, alert on and skip exactly the types that `loadFile` accepts, rejects and ignores. |
| MediaTypes.FirstRaster | src/index.js:218-227 | The index of the first loadable type, if any: every earlier type is not loadable, and None means no type is. |
| MediaTypes.FirstRasterAt | src/index.js:221-226 | A loadable type at `i` with no loadable type before it is what the scan picks. |
| MediaTypes.SvgAlerts | src/index.js:220 | `n` alerts, each the SVG message. |
| MediaTypes.FirstIndexOf | src/index.js:161 | The first occurrence of the pattern: it occurs there and at no earlier index, and None means it occurs nowhere. |
| MediaTypes.ReplaceFirst | src/index.js:161 | Without an occurrence the string is unchanged. With one, the first occurrence, and only it, is replaced: the result is the part before it, the replacement, then the part after it. |
| MediaTypes.ExampleFullUrl | src/index.js:161 | The thumbnail's address with its first `-64` cut out, or the address unchanged when it has none. |
| MediaTypes.ExampleUrlDropsMarker | src/index.js:160-163 | A thumbnail `<stem>-64<rest>` whose stem holds no earlier marker loads `<stem><rest>`. |
| MediaTypes.ExampleBundled | src/index.js:160-163 | For an origin and a name without `-`, the bundled thumbnail `<origin>/cv-npr/img/<name>-64.webp` (the resolved `img.src`) loads `<origin>/cv-npr/img/<name>.webp`. |
| Imaging.DrawOver | src/index.js:417 | `drawImage` onto a same-size canvas keeps the size. Opaque source pixels replace the canvas pixels, and fully transparent ones leave them. |
| Imaging.DrawOpaqueReplaces | src/index.js:417 | Drawing an opaque raster yields exactly that raster, whatever the canvas held. |
| Imaging.DrawTransparentKeepsCanvas | src/index.js:417 | A transparent pixel drawn over an opaque red one leaves red, not the drawn pixel. |
| Filters.Inputs | src/index.js:400-619 | Each filter registers at least one input, with distinct names, among them every input its neutral test reads. |
| Filters.IsNeutral | src/index.js:413-627 | A filter is neutral iff one of its gate inputs holds the neutral value: sigmaS 0 for the first four filters, dynRatio 0, any of K, alpha, iterations 0, colormap 0, and a mosaic block size of 1. |
| Filters.KernelSize | src/index.js:541 | `size * 2 + 1` is at least 1 for a non-negative size, and odd for a whole one. |
| Filters.MosaicSize | src/index.js:628-635 | Each component is the integer part of the original's component divided by the block size. It is non-negative, and no larger than the original for a block size of at least 1. |
| Filters.Render | src/index.js:418-640 | Under the library's size contracts, every pipeline returns a raster of the original's size, including the mosaic's shrink and restore. |
| Filters.Output | src/index.js:413-642 | A neutral filter yields the original itself, and any other filter yields its library pipeline's output on the original. Under the library's size contracts every filter yields the original's size. |
| Filters.OutputAsWritten | src/index.js:413-642 | The filters as written. A neutral filter composites the original over the working canvas: the result has the original's size, opaque original pixels are copied, and fully transparent ones leave the working canvas's pixel. A non-neutral filter gives the library output that `Output` gives. |
| Filters.AsWrittenExactWhenOpaque | src/index.js:416-417 | For an opaque original, the as-written neutral branch is an exact copy. |
| Filters.AsWrittenSelectionLeavesResidue | src/index.js:351-366 | With the neutral branch as written and a transparent original, selecting neutral detail enhancement, then stylization, then detail enhancement again does not give back the first result. |
| Filters.AsWrittenNeutralIsNotACopy | src/index.js:508-510 | Stylization with sigmaS 0 over an earlier opaque result does not restore a transparent original pixel. |
| Panels.ParamsOf | src/index.js:415-419 | The values a filter reads are the current values of its own inputs, one per registered input. |
| Panels.FilterPanel.constructor | src/index.js:238-258 | Option 0 is selected and detail enhancement is current with only its region shown. No callback is pending. |
| Panels.FilterPanel.SetCanvas | src/index.js:644-658 | Both canvases take the source's intrinsic size (an image's natural size) and exactly its pixels. |
| Panels.FilterPanel.Apply | src/index.js:413-642 | The working canvas becomes the filter's output on the original canvas. For a neutral filter that output is the original itself. Nothing else changes and the panel invariant holds. |
| Panels.FilterPanel.Schedule | src/index.js:362-365 | The callback is queued after those already pending. |
| Panels.FilterPanel.RunTask | src/index.js:362-365 | The oldest callback runs. A deferred apply resolves the current filter when it runs; the onload one uses the filter it captured. |
| Panels.FilterPanel.FilterSelectEvent | src/index.js:351-366 | The previous option's region is hidden and the new one's shown. The new filter becomes current and one apply is deferred. |
| Panels.FilterPanel.InputEvent | src/index.js:382-389 | The input takes the new value and one apply of the current filter is deferred. |
| Panels.FilterPanel.ResetClick | src/index.js:390-396 | The input gets back its default value and, through the dispatched input event, one apply is deferred. |
| Panels.FilterPanel.MoveLoadPanel | src/index.js:333-336 | The filter panel is hidden and the load panel shown, so exactly one of them is visible. |
| Panels.SelectionLeavesNoResidue | src/index.js:351-366 | Selecting a, then b, then a, and running each apply, leaves the inputs and the original canvas as they were and the working canvas as a alone would. |
| Panels.LoadPanel.constructor | src/index.js:136-166 | The load panel starts visible beside a hidden filter panel, with no alert, error or request. |
| Panels.LoadPanel.LoadImage | src/index.js:190-196 | The load panel is hidden, the filter panel shown, and the decode of the URL started. |
| Panels.LoadPanel.HandleImageOnload | src/index.js:179-188 | The image goes into both canvases. One apply of the filter that is current at that moment is deferred. |
| Panels.LoadPanel.LoadFile | src/index.js:204-212 | The alerts and requests grow exactly as `ClassifyFile` says. Visibility changes only when the file is loaded. |
| Panels.LoadPanel.DropEvent | src/index.js:674-678 | The first dropped file is handled as `loadFile` handles it: its alert, its load request, the filter panel shown for an accepted file, and both panels left as they were otherwise. With no file, nothing changes. |
| Panels.LoadPanel.PasteEvent | src/index.js:679-684 | A pasted file is handled as `loadFile` handles it: its alert, its load request, the filter panel shown for an accepted file, and both panels left as they were otherwise. An item that is not a file, or no item at all, changes nothing. |
| Panels.LoadPanel.ExampleClick | src/index.js:158-164 | The full-size URL of the clicked thumbnail is requested. |
| Panels.LoadPanel.LoadClipboardImage | src/index.js:214-231 | See the bullets below the table. |
| OpenCVBuild.ChooseBuild | src/en/sw.js:21-34 | SIMD with threads selects threaded-simd, SIMD alone simd, threads alone threads, and neither wasm. Threads count only in a cross-origin isolated context. `OpenCVPath` returns the chosen build's script path. |
| OpenCVBuild.ScriptPath | src/en/sw.js:26-32 | Every returned script path lies under `/cv-npr/opencv/` and ends in `/opencv_js.js`. |
| OpenCVBuild.WasmPath | src/en/sw.js:39 | The last three characters are replaced by `.wasm`, and everything before them is kept. |
| OpenCVBuild.WasmBesideScript | src/en/sw.js:36-40 | Every build's script ends in `.js`, and its `.wasm` file is `opencv_js.wasm` in the same directory. |
| ServiceWorker.Manifest.constructor | src/en/sw.js:2-15 | The manifest starts as the twelve static URLs. |
| ServiceWorker.Manifest.AddOpenCVPaths | src/en/sw.js:36-40 | Exactly two entries are appended after the existing ones, in order: the chosen script, then its `.wasm` path. |
| ServiceWorker.ManifestAfterAddition | src/en/sw.js:36-42 | The extended manifest ends with the chosen build's `opencv_js.js` and `opencv_js.wasm`. |
| ServiceWorker.AddAll | src/en/sw.js:47 | Every manifest URL is stored with the network's response. Other entries stay. |
| ServiceWorker.Install | src/en/sw.js:44-50 | The current cache exists and holds every manifest URL. All other caches are unchanged. |
| ServiceWorker.StaleCaches | src/en/sw.js:64 | Every name to delete is a listed name other than the current one, and there are never more of them than were listed. |
| ServiceWorker.StaleCachesExactly | src/en/sw.js:62-66 | A cache name is deleted iff it is listed and differs from the current name, so the current cache is never deleted. |
| ServiceWorker.StaleCachesWithoutCurrent | src/en/sw.js:64 | With the current name absent, every listed cache is deleted, in order. |
| ServiceWorker.Activate | src/en/sw.js:60-69 | Exactly the stale caches are removed, and the remaining ones are untouched. |
| ServiceWorker.ActivateKeepsOnlyCurrent | src/en/sw.js:60-69 | After activation, at most the current cache remains, with its contents intact. |
| ServiceWorker.Match | src/en/sw.js:54 | The response comes from the first listed cache that holds the URL; no earlier listed cache holds it. None means no listed cache holds it. |
| ServiceWorker.Respond | src/en/sw.js:52-58 | The network is used iff no cached response matched. Otherwise the cached response is returned. |
| ServiceWorker.MatchOnlyCache | src/en/sw.js:54 | With only the current cache present, a match is answered from it. |
| ServiceWorker.ManifestServedOffline | src/en/sw.js:44-69 | After install and then activate, every manifest URL is served from the cache with the response stored at install, never from the network. |

`Panels.LoadPanel.LoadClipboardImage` models src/index.js:214-231 and states:

- A refused read or an empty clipboard logs one error and changes nothing else.
- Otherwise, one SVG alert is raised per SVG type before the first loadable type.
- Exactly that first loadable type is requested, or none if there is none.
- When `getType` rejects that type, one error is logged instead, nothing is requested, the load panel stays visible, and the alerts already raised remain.

## Left out

- Tooltips, language selection, the dark-mode toggle, the transparency CSS variables, `scrollIntoView`, the `loading` CSS class and `toggleCanvas`/`resizeWell`/`updateCursor`/`updatePenSize` are page decoration or code unreachable from the filter panel's handlers; they are not modelled.
- `download` (PNG export through an anchor click and `revokeObjectURL`), `executeCamera`, and the before/after comparison widget need the DOM and are not modelled.
- Loading the OpenCV script (`loadScript`) and `wasmFeatureDetect` are I/O: the feature-probe results are parameters of `ChooseBuild`.
- The vision library's pixel results are not modelled; only the size facts in `Imaging.Vision.Valid` are assumed. Library failures (for example a resize to an empty size when the block size exceeds the image) are not modelled.
- `Filters.Admissible` assumes the mosaic block size is positive; the input ranges are set in HTML, which is not part of this model.
- The initial state of the filter select and of the range inputs comes from the HTML; the constructors take it as parameters.
- `Viewport.ActualRect` works on exact reals instead of IEEE doubles, and requires positive sizes (a zero-sized canvas gives NaN or infinities in JavaScript).
- Panels.FilterPanel.SetCanvas: the drawing is idealised as an exact copy; resizing a canvas clears it, so this only ignores premultiplied-alpha rounding.
- Panels.SelectionLeavesNoResidue: holds only for the corrected neutral branch that `Apply` models. With the neutral branch as written, a neutral filter selected after an opaque result keeps that result wherever the original is transparent (`Filters.AsWrittenSelectionLeavesResidue`).
- Panels.FilterPanel.Apply: stores the exact copy of the original for a neutral filter (the corrected behaviour, see Findings), not the composited result.
- `loadInputImage` (src/index.js:198-202) hands the first picked file to `loadFile` as `DropEvent` does, then clears the input; it is not modelled separately.
- Object URLs are modelled as the blob they name; they are never revoked by the source either.
- Asynchrony beyond the `setTimeout` queue is not modelled: the service worker's `install` may run before `addOpenCVPaths` has appended its two paths, and the model takes the manifest as it is when `Install` is called.
- `cache.addAll` is all-or-nothing on a network failure; network failures are not modelled (`network` is total).
- `caches.match` searches the caches in creation order; the model takes that order as the `names` parameter.

## Findings

| source | as written | input that shows it | evidently intended | confidence | as-written member | corrected member |
|---|---|---|---|---|---|---|
| src/index.js:416-417 (and the same branch in each of the eight filters) | the neutral branch calls `drawImage(originalCanvas)` on the working canvas with the default source-over compositing | a picture with a transparent pixel, stylized with sigmaS > 0, then sigmaS set to 0: the stylized (opaque) pixel stays visible | the neutral setting shows the original picture unchanged | medium, not executed | Filters.AsWrittenNeutralIsNotACopy | Panels.FilterPanel.Apply |

=== FILE: filters.dfy ===
/** The eight filters of the filter panel: the parameters each reads, the
    neutral values that short-circuit it to a plain copy of the original,
    the parameters it derives, and the library pipeline it runs otherwise. */
module Filters {
  import opened Imaging

  /** The registered filters, in the order `addFilters` registers them. */
  datatype FilterKind =
    | DetailEnhance
    | EdgePreservingFilter
    | PencilSketch
    | Stylization
    | OilPainting
    | AnisotropicDiffusion
    | ApplyColorMap
    | Mosaic

  /** The inputs whose value decides whether a filter is neutral. */
  function Gates(f: FilterKind): seq<string>
  {
    match f
    case DetailEnhance | EdgePreservingFilter | PencilSketch | Stylization => ["sigmaS"]
    case OilPainting => ["dynRatio"]
    case AnisotropicDiffusion => ["K", "alpha", "iterations"]
    case ApplyColorMap => ["colormap"]
    case Mosaic => ["dsize"]
  }

  /** The value of a gate input at which its filter is neutral: a block of
      one pixel for the mosaic, zero for every other filter. */
  function NeutralValue(f: FilterKind): real
  {
    if f == Mosaic then 1.0 else 0.0
  }

  /** The names of the range inputs each filter registers: at least one,
      all distinct, and among them every input its neutral test reads. */
  function Inputs(f: FilterKind): (names: seq<string>)
    ensures |names| >= 1
    ensures forall i, j :: 0 <= i < j < |names| ==> names[i] != names[j]
    ensures forall n :: n in Gates(f) ==> n in names
  {
    match f
    case DetailEnhance => ["sigmaS", "sigmaR"]
    case EdgePreservingFilter => ["sigmaS", "sigmaR"]
    case PencilSketch => ["sigmaS", "sigmaR", "shade"]
    case Stylization => ["sigmaS", "sigmaR"]
    case OilPainting => ["size", "dynRatio"]
    case AnisotropicDiffusion => ["alpha", "K", "iterations"]
    case ApplyColorMap => ["colormap"]
    case Mosaic => ["dsize"]
  }

  /** The numeric values (`Number(input.value)`) of a filter's inputs. */
  type Params = map<string, real>

  /** The numeric value of one named input. */
  function Arg(p: Params, name: string): real
    requires name in p
  {
    p[name]
  }

  /** The parameters carry a value for every input of the filter, and the
      mosaic's block size is positive (its slider's range). */
  predicate Admissible(f: FilterKind, p: Params)
  {
    && (forall n :: n in Inputs(f) ==> n in p)
    && (f == Mosaic ==> Arg(p, "dsize") > 0.0)
  }

  /** The condition under which a filter copies the original canvas into the
      working canvas instead of calling the library: one of its gate inputs
      holds the neutral value. The other inputs are read only when the
      library is called, so they never decide it. */
  predicate IsNeutral(f: FilterKind, p: Params): (neutral: bool)
    requires Admissible(f, p)
    ensures neutral <==> exists n :: n in Gates(f) && Arg(p, n) == NeutralValue(f)
  {
    match f
    case DetailEnhance | EdgePreservingFilter | PencilSketch | Stylization => Arg(p, "sigmaS") == 0.0
    case OilPainting => Arg(p, "dynRatio") == 0.0
    case AnisotropicDiffusion => Arg(p, "K") == 0.0 || Arg(p, "alpha") == 0.0 || Arg(p, "iterations") == 0.0
    case ApplyColorMap => Arg(p, "colormap") == 0.0
    case Mosaic => Arg(p, "dsize") == 1.0
  }

  /** The oil-painting kernel size, `size * 2 + 1`. For a whole, non-negative
      slider value it is a whole, odd number of at least one. */
  function KernelSize(size: real): (k: real)
    ensures size >= 0.0 ==> k >= 1.0
    ensures size == size.Floor as real ==> k == (2 * size.Floor + 1) as real && (2 * size.Floor + 1) % 2 == 1
  {
    size * 2.0 + 1.0
  }

  /** The size the mosaic first shrinks to, `new cv.Size(w / dsize, h / dsize)`,
      of which the library keeps the integer parts. */
  function MosaicSize(w: nat, h: nat, dsize: real): (s: Size)
    requires dsize > 0.0
    ensures s.width >= 0 && s.height >= 0
    ensures (s.width as real) <= (w as real) / dsize < (s.width + 1) as real
    ensures (s.height as real) <= (h as real) / dsize < (s.height + 1) as real
    ensures dsize >= 1.0 ==> s.width <= w && s.height <= h
  {
    Size(((w as real) / dsize).Floor, ((h as real) / dsize).Floor)
  }

  /** The library pipeline a filter runs when it is not neutral. Every one
      reads the original canvas only. All but the mosaic convert RGBA to RGB
      before the call and back after it; the mosaic shrinks and then restores
      the original's size. Under the library's size contracts no pipeline
      changes the size. */
  function Render(cv: Vision, f: FilterKind, p: Params, original: Raster): (r: Raster)
    requires Admissible(f, p)
    ensures cv.Valid() ==> SameSize(r, original)
  {
    var rgb := cv.rgbaToRgb(original);
    match f
    case DetailEnhance => cv.rgbToRgba(cv.detailEnhance(rgb, Arg(p, "sigmaS"), Arg(p, "sigmaR")))
    case EdgePreservingFilter => cv.rgbToRgba(cv.edgePreservingFilter(rgb, RecursFilter, Arg(p, "sigmaS"), Arg(p, "sigmaR")))
    case PencilSketch => cv.rgbToRgba(cv.pencilSketch(rgb, Arg(p, "sigmaS"), Arg(p, "sigmaR"), Arg(p, "shade")))
    case Stylization => cv.rgbToRgba(cv.stylization(rgb, Arg(p, "sigmaS"), Arg(p, "sigmaR")))
    case OilPainting => cv.rgbToRgba(cv.oilPainting(rgb, KernelSize(Arg(p, "size")), Arg(p, "dynRatio")))
    case AnisotropicDiffusion => cv.rgbToRgba(cv.anisotropicDiffusion(rgb, Arg(p, "alpha"), Arg(p, "K"), Arg(p, "iterations")))
    case ApplyColorMap => cv.rgbToRgba(cv.applyColorMap(rgb, Arg(p, "colormap")))
    case Mosaic =>
      var small := cv.resize(original, MosaicSize(original.width, original.height, Arg(p, "dsize")), InterArea);
      cv.resize(small, Size(original.width, original.height), InterNearest)
  }

  /** What the working canvas holds after a filter is applied: a copy of the
      original when the filter is neutral, the library's output otherwise.
      Nothing in it depends on what the working canvas held before, and it
      always has the original's size. */
  function Output(cv: Vision, f: FilterKind, p: Params, original: Raster): (r: Raster)
    requires Admissible(f, p)
    ensures IsNeutral(f, p) ==> r == original
    ensures !IsNeutral(f, p) ==> r == Render(cv, f, p, original)
    ensures cv.Valid() ==> SameSize(r, original)
  {
    if IsNeutral(f, p) then original else Render(cv, f, p, original)
  }

  /** The neutral branch as the source writes it: `drawImage` of the original
      over whatever the working canvas holds, with the canvas's default
      source-over compositing. */
  function OutputAsWritten(cv: Vision, f: FilterKind, p: Params, original: Raster, working: Raster): (r: Raster)
    requires Admissible(f, p)
    requires SameSize(working, original) && WellFormed(working) && WellFormed(original)
    ensures IsNeutral(f, p) ==> SameSize(r, original) && |r.pixels| == |original.pixels|
    ensures IsNeutral(f, p) ==>
              forall i :: 0 <= i < |original.pixels| && original.pixels[i].a >= 255 ==>
                r.pixels[i] == original.pixels[i]
    ensures IsNeutral(f, p) ==>
              forall i :: 0 <= i < |original.pixels| && original.pixels[i].a <= 0 ==>
                r.pixels[i] == working.pixels[i]
    ensures !IsNeutral(f, p) ==> r == Output(cv, f, p, original)
  {
    if IsNeutral(f, p) then DrawOver(working, original)
    else Render(cv, f, p, original)
  }

  /** For an opaque original the source's neutral branch is an exact copy. */
  lemma AsWrittenExactWhenOpaque(cv: Vision, f: FilterKind, p: Params, original: Raster, working: Raster)
    requires Admissible(f, p)
    requires SameSize(working, original) && WellFormed(working) && WellFormed(original)
    requires Opaque(original)
    ensures OutputAsWritten(cv, f, p, original, working) == Output(cv, f, p, original)
  {
    if IsNeutral(f, p) {
      DrawOpaqueReplaces(working, original);
    }
  }

  /** With a transparent original pixel, the source's neutral branch leaves
      the previous output showing: setting stylization's sigmaS to 0 after an
      opaque result does not restore the original. */
  lemma AsWrittenNeutralIsNotACopy(cv: Vision)
    ensures var p := map["sigmaS" := 0.0, "sigmaR" := 0.45];
            var original := Raster(1, 1, [Rgba(0, 0, 0, 0)]);
            var working := Raster(1, 1, [Rgba(255, 0, 0, 255)]);
            Admissible(Stylization, p) && IsNeutral(Stylization, p) &&
            OutputAsWritten(cv, Stylization, p, original, working) != original
  {
    DrawTransparentKeepsCanvas();
  }

  /** A library under which every conversion back to RGBA yields opaque red,
      as `COLOR_RGB2RGBA` yields opaque pixels, and every other operation
      returns its input (resize: a blank raster of the requested size). */
  function RedLibrary(): Vision
  {
    Vision(
      m => m,
      (m: Raster) => Raster(m.width, m.height, seq(m.width * m.height, _ => Rgba(255, 0, 0, 255))),
      (m, s, r) => m,
      (m, e, s, r) => m,
      (m, s, r, sh) => m,
      (m, s, r) => m,
      (m, k, d) => m,
      (m, al, k, n) => m,
      (m, c) => m,
      (m: Raster, sz: Size, i: Interpolation) => if sz.width >= 0 && sz.height >= 0 then Raster(sz.width, sz.height, []) else m)
  }

  /** The filters as written do build on each other: with a transparent
      original, selecting neutral detail enhancement, then stylization, then
      detail enhancement again leaves the stylized pixel on the canvas, where
      the first selection showed the transparent original. */
  lemma AsWrittenSelectionLeavesResidue()
    ensures var cv := RedLibrary();
            var original := Raster(1, 1, [Rgba(0, 0, 0, 0)]);
            var a := map["sigmaS" := 0.0, "sigmaR" := 0.15];
            var b := map["sigmaS" := 60.0, "sigmaR" := 0.45];
            var first := OutputAsWritten(cv, DetailEnhance, a, original, original);
            var second := OutputAsWritten(cv, Stylization, b, original, first);
            var third := OutputAsWritten(cv, DetailEnhance, a, original, second);
            && cv.Valid()
            && first == Output(cv, DetailEnhance, a, original)
            && third != first
  {
    var cv := RedLibrary();
    var original := Raster(1, 1, [Rgba(0, 0, 0, 0)]);
    var a := map["sigmaS" := 0.0, "sigmaR" := 0.15];
    var b := map["sigmaS" := 60.0, "sigmaR" := 0.45];
    assert IsNeutral(DetailEnhance, a);
    assert !IsNeutral(Stylization, b);
    var first := OutputAsWritten(cv, DetailEnhance, a, original, original);
    assert first.pixels[0] == Rgba(0, 0, 0, 0);
    var second := OutputAsWritten(cv, Stylization, b, original, first);
    assert second.pixels[0] == Rgba(255, 0, 0, 255);
    var third := OutputAsWritten(cv, DetailEnhance, a, original, second);
    assert third.pixels[0] == Rgba(255, 0, 0, 255);
  }
}

=== FILE: imaging.dfy ===
/** Rasters, the 2D canvas operations the panels use on them, and the
    external vision library (OpenCV) as a bundle of opaque functions. */
module Imaging {

  /** One non-premultiplied RGBA pixel, each channel in 0..255. */
  datatype Rgba = Rgba(r: int, g: int, b: int, a: int)

  /** A raster: its size and its pixels in row-major order. */
  datatype Raster = Raster(width: nat, height: nat, pixels: seq<Rgba>)

  /** The raster holds exactly one pixel per position. */
  predicate WellFormed(x: Raster)
  {
    |x.pixels| == x.width * x.height
  }

  /** The two rasters have the same width and height. */
  predicate SameSize(x: Raster, y: Raster)
  {
    x.width == y.width && x.height == y.height
  }

  /** The size argument of `cv.resize` (`new cv.Size(w, h)`); the library
      keeps the integer part of each component. */
  datatype Size = Size(width: int, height: int)

  /** The interpolation flags the mosaic passes to `cv.resize`. */
  datatype Interpolation = InterArea | InterNearest

  /** The edge-preserving filter's flag; the source passes `RECURS_FILTER`. */
  datatype EdgeFlag = RecursFilter | NormconvFilter

  /** The vision library as the panel sees it: each operation is a function
      of its input matrix and its numeric parameters, whose pixel results are
      not modelled. Matrices are rasters. */
  datatype Vision = Vision(
    rgbaToRgb: Raster -> Raster,                       // cvtColor(.., COLOR_RGBA2RGB)
    rgbToRgba: Raster -> Raster,                       // cvtColor(.., COLOR_RGB2RGBA)
    detailEnhance: (Raster, real, real) -> Raster,     // sigmaS, sigmaR
    edgePreservingFilter: (Raster, EdgeFlag, real, real) -> Raster,
    pencilSketch: (Raster, real, real, real) -> Raster, // colour output; sigmaS, sigmaR, shade
    stylization: (Raster, real, real) -> Raster,
    oilPainting: (Raster, real, real) -> Raster,       // kernel size, dynRatio
    anisotropicDiffusion: (Raster, real, real, real) -> Raster, // alpha, K, iterations
    applyColorMap: (Raster, real) -> Raster,
    resize: (Raster, Size, Interpolation) -> Raster)
  {
    /** What the panel relies on from the library's documented contracts:
        the colour conversions and the photo filters keep the size of their
        input, and `resize` produces exactly the size it is asked for. */
    ghost predicate Valid()
    {
      && (forall m :: SameSize(rgbaToRgb(m), m))
      && (forall m :: SameSize(rgbToRgba(m), m))
      && (forall m, s, r :: SameSize(detailEnhance(m, s, r), m))
      && (forall m, f, s, r :: SameSize(edgePreservingFilter(m, f, s, r), m))
      && (forall m, s, r, sh :: SameSize(pencilSketch(m, s, r, sh), m))
      && (forall m, s, r :: SameSize(stylization(m, s, r), m))
      && (forall m, k, d :: SameSize(oilPainting(m, k, d), m))
      && (forall m, al, k, n :: SameSize(anisotropicDiffusion(m, al, k, n), m))
      && (forall m, c :: SameSize(applyColorMap(m, c), m))
      && (forall m, sz: Size, i | sz.width >= 0 && sz.height >= 0 ::
            resize(m, sz, i).width == sz.width && resize(m, sz, i).height == sz.height)
    }
  }

  /** Source-over compositing of one pixel onto another, the 2D canvas's
      default. An opaque source pixel replaces the destination, a fully
      transparent one leaves it, and a partly transparent one is blended
      (rounding idealised). */
  function Over(src: Rgba, dst: Rgba): Rgba
  {
    if src.a >= 255 then src
    else if src.a <= 0 then dst
    else
      var a := src.a + dst.a * (255 - src.a) / 255;
      var mix := (s: int, d: int) => if a == 0 then 0 else (s * src.a + d * dst.a * (255 - src.a) / 255) / a;
      Rgba(mix(src.r, dst.r), mix(src.g, dst.g), mix(src.b, dst.b), a)
  }

  /** `context.drawImage(source, 0, 0)` onto a canvas of the same size:
      every pixel of the source is composited over the canvas's pixel. */
  function DrawOver(canvas: Raster, source: Raster): (r: Raster)
    requires SameSize(canvas, source) && WellFormed(canvas) && WellFormed(source)
    ensures SameSize(r, canvas) && WellFormed(r)
    ensures forall i :: 0 <= i < |r.pixels| && source.pixels[i].a >= 255 ==> r.pixels[i] == source.pixels[i]
    ensures forall i :: 0 <= i < |r.pixels| && source.pixels[i].a <= 0 ==> r.pixels[i] == canvas.pixels[i]
  {
    Raster(canvas.width, canvas.height,
      seq(|canvas.pixels|, i requires 0 <= i < |canvas.pixels| => Over(source.pixels[i], canvas.pixels[i])))
  }

  /** Every pixel of the raster is opaque. */
  predicate Opaque(x: Raster)
  {
    forall i :: 0 <= i < |x.pixels| ==> x.pixels[i].a >= 255
  }

  /** Drawing an opaque raster over a canvas of its size yields exactly that
      raster, whatever the canvas held. */
  lemma DrawOpaqueReplaces(canvas: Raster, source: Raster)
    requires SameSize(canvas, source) && WellFormed(canvas) && WellFormed(source)
    requires Opaque(source)
    ensures DrawOver(canvas, source) == source
  {
    var r := DrawOver(canvas, source);
    assert r.pixels == source.pixels;
  }

  /** A transparent original pixel drawn over an opaque canvas pixel leaves
      the canvas pixel showing: the drawn result differs from the original. */
  lemma DrawTransparentKeepsCanvas()
    ensures DrawOver(Raster(1, 1, [Rgba(255, 0, 0, 255)]), Raster(1, 1, [Rgba(0, 0, 0, 0)]))
            != Raster(1, 1, [Rgba(0, 0, 0, 0)])
  {
    var r := DrawOver(Raster(1, 1, [Rgba(255, 0, 0, 255)]), Raster(1, 1, [Rgba(0, 0, 0, 0)]));
    assert r.pixels[0] == Rgba(255, 0, 0, 255);
  }
}

=== FILE: media_types.dfy ===
/** The string logic of the load panel: which media types `loadFile` and
    `loadClipboardImage` accept, and how a bundled example's thumbnail URL
    is turned into the full-size URL. */
module MediaTypes {
  import opened Wrappers

  /** The one vector type the panel refuses. */
  const Svg: string := "image/svg+xml"
  /** The prefix every image media type carries. */
  const ImagePrefix: string := "image/"
  /** The only message the load panel ever alerts. */
  const SvgAlert: string := "SVG is not supported."
  /** The marker the thumbnails carry before their extension. */
  const ThumbnailMarker: string := "-64"

  /** JavaScript's `String.prototype.startsWith`. */
  predicate StartsWith(s: string, prefix: string)
  {
    |prefix| <= |s| && s[..|prefix|] == prefix
  }

  /** What `loadFile` does with a file of a given media type. */
  datatype FileVerdict =
    | Ignore     // not an image: return silently
    | RejectSvg  // the SVG alert, nothing loaded
    | Accept     // an object URL is made and loaded

  /** The checks of `loadFile`, in the order it makes them: the image
      prefix first, then the SVG type. */
  function ClassifyFile(mediaType: string): (v: FileVerdict)
    ensures v == Accept <==> StartsWith(mediaType, ImagePrefix) && mediaType != Svg
    ensures v == RejectSvg <==> mediaType == Svg
    ensures v == Ignore <==> !StartsWith(mediaType, ImagePrefix)
  {
    if !StartsWith(mediaType, ImagePrefix) then Ignore
    else if mediaType == Svg then RejectSvg
    else Accept
  }

  /** What one step of the clipboard scan does with one offered type. */
  datatype ClipboardStep =
    | Skip        // neither SVG nor an image: go on
    | AlertSvg    // alert and go on
    | LoadType    // read the blob of this type, load it and stop

  /** The checks of the clipboard loop, in its order: the SVG type first,
      then the image prefix. */
  function ClassifyClipboardType(mediaType: string): (step: ClipboardStep)
    ensures step == AlertSvg <==> mediaType == Svg
    ensures step == LoadType <==> StartsWith(mediaType, ImagePrefix) && mediaType != Svg
    ensures step == Skip <==> !StartsWith(mediaType, ImagePrefix)
  {
    if mediaType == Svg then
      assert StartsWith(Svg, ImagePrefix) by { assert Svg[..|ImagePrefix|] == ImagePrefix; }
      AlertSvg
    else if StartsWith(mediaType, ImagePrefix) then LoadType
    else Skip
  }

  /** Although the two checks are made in opposite orders, the file path and
      the clipboard path agree on every media type. */
  lemma ClipboardAgreesWithFile(mediaType: string)
    ensures ClassifyClipboardType(mediaType) == LoadType <==> ClassifyFile(mediaType) == Accept
    ensures ClassifyClipboardType(mediaType) == AlertSvg <==> ClassifyFile(mediaType) == RejectSvg
    ensures ClassifyClipboardType(mediaType) == Skip <==> ClassifyFile(mediaType) == Ignore
  {
    if mediaType == Svg {
      assert Svg[..|ImagePrefix|] == ImagePrefix;
    }
  }

  /** A type the clipboard scan would load. */
  predicate IsRaster(mediaType: string)
  {
    ClassifyClipboardType(mediaType) == LoadType
  }

  /** The index of the first type the clipboard scan loads, if any. */
  function FirstRaster(types: seq<string>): (r: Option<nat>)
    ensures r.Some? ==> r.value < |types| && IsRaster(types[r.value])
    ensures r.Some? ==> forall j :: 0 <= j < r.value ==> !IsRaster(types[j])
    ensures r.None? ==> forall j :: 0 <= j < |types| ==> !IsRaster(types[j])
  {
    if types == [] then None
    else if IsRaster(types[0]) then Some(0)
    else match FirstRaster(types[1..])
      case None => None
      case Some(i) => Some(i + 1)
  }

  /** The scan stops at `i` exactly when `i` is the first type it would
      load. */
  lemma FirstRasterAt(types: seq<string>, i: nat)
    requires i < |types| && IsRaster(types[i])
    requires forall j :: 0 <= j < i ==> !IsRaster(types[j])
    ensures FirstRaster(types) == Some(i)
  {
  }

  /** How many SVG types a sequence of offered types holds. */
  function SvgCount(types: seq<string>): nat
  {
    if types == [] then 0
    else SvgCount(types[..|types| - 1]) + (if types[|types| - 1] == Svg then 1 else 0)
  }

  /** `n` copies of the SVG alert. */
  function SvgAlerts(n: nat): (r: seq<string>)
    ensures |r| == n && forall i :: 0 <= i < n ==> r[i] == SvgAlert
  {
    if n == 0 then [] else SvgAlerts(n - 1) + [SvgAlert]
  }

  /** A pattern occurs in `s` at index `i`. */
  predicate OccursAt(s: string, pattern: string, i: nat)
  {
    i + |pattern| <= |s| && s[i..i + |pattern|] == pattern
  }

  /** The index of the first occurrence of `pattern` in `s`, as
      `String.prototype.indexOf` finds it. */
  function FirstIndexOf(s: string, pattern: string): (r: Option<nat>)
    ensures r.Some? ==> OccursAt(s, pattern, r.value)
    ensures r.Some? ==> forall j :: 0 <= j < r.value ==> !OccursAt(s, pattern, j)
    ensures r.None? ==> forall j :: 0 <= j <= |s| ==> !OccursAt(s, pattern, j)
    decreases |s|
  {
    if |s| < |pattern| then None
    else if s[..|pattern|] == pattern then Some(0)
    else
      assert forall j :: 1 <= j <= |s| && OccursAt(s, pattern, j) ==> OccursAt(s[1..], pattern, j - 1);
      match FirstIndexOf(s[1..], pattern)
      case None => None
      case Some(i) => Some(i + 1)
  }

  /** `String.prototype.replace` with a string pattern and a replacement
      free of `$` patterns: only the first occurrence is replaced. */
  function ReplaceFirst(s: string, pattern: string, replacement: string): (r: string)
    ensures FirstIndexOf(s, pattern).None? ==> r == s
    ensures FirstIndexOf(s, pattern).Some? ==>
              var i := FirstIndexOf(s, pattern).value;
              r == s[..i] + replacement + s[i + |pattern|..]
    ensures FirstIndexOf(s, pattern).Some? ==> |r| == |s| - |pattern| + |replacement|
  {
    match FirstIndexOf(s, pattern)
    case None => s
    case Some(i) => s[..i] + replacement + s[i + |pattern|..]
  }

  /** The full-size image URL a bundled example's thumbnail click loads:
      the thumbnail's address with its first `-64` cut out, or unchanged when
      it has none. */
  function ExampleFullUrl(thumbnail: string): (url: string)
    ensures FirstIndexOf(thumbnail, ThumbnailMarker).None? ==> url == thumbnail
    ensures FirstIndexOf(thumbnail, ThumbnailMarker).Some? ==>
              var i := FirstIndexOf(thumbnail, ThumbnailMarker).value;
              url == thumbnail[..i] + thumbnail[i + |ThumbnailMarker|..]
  {
    ReplaceFirst(thumbnail, ThumbnailMarker, "")
  }

  /** A thumbnail named `<stem>-64<rest>` loads `<stem><rest>`, provided the
      marker does not already occur in the stem (including an occurrence
      that would straddle the end of the stem). */
  lemma {:induction false} ExampleUrlDropsMarker(stem: string, rest: string)
    requires FirstIndexOf(stem + "-6", ThumbnailMarker).None?
    ensures ExampleFullUrl(stem + ThumbnailMarker + rest) == stem + rest
  {
    var s := stem + ThumbnailMarker + rest;
    var prefix := stem + "-6";
    assert OccursAt(s, ThumbnailMarker, |stem|) by {
      assert s[|stem|..|stem| + 3] == ThumbnailMarker;
    }
    forall j | 0 <= j < |stem| ensures !OccursAt(s, ThumbnailMarker, j) {
      assert s[j..j + 3] == prefix[j..j + 3];
      assert !OccursAt(prefix, ThumbnailMarker, j);
    }
    match FirstIndexOf(s, ThumbnailMarker)
    case None =>
      assert false;
    case Some(i) =>
      assert i == |stem|;
      assert s[..i] + "" + s[i + 3..] == stem + rest;
  }

  /** The bundled examples (`anime`, `car`, `cat`, `castle`): the image
      element's `src` is the resolved address `<origin>/cv-npr/img/<name>-64.webp`.
      For an origin and a name without `-`, the click loads
      `<origin>/cv-npr/img/<name>.webp`; `ExampleUrlDropsMarker` covers any
      other origin in which the marker does not occur. */
  lemma ExampleBundled(origin: string, name: string)
    requires '-' !in origin && '-' !in name
    ensures ExampleFullUrl(origin + "/cv-npr/img/" + name + "-64.webp") == origin + "/cv-npr/img/" + name + ".webp"
  {
    var dir := origin + "/cv-npr/img/";
    var stem := dir + name;
    var prefix := stem + "-6";
    var dash := |origin| + 3;
    assert prefix[dash] == '-' && prefix[dash + 1] == 'n';
    forall i | 0 <= i && i + 3 <= |prefix| ensures !OccursAt(prefix, ThumbnailMarker, i) {
      // the only `-` before the marker is the one in "cv-npr", followed by `n`
      if i == dash {
        assert prefix[i..i + 3][1] != ThumbnailMarker[1];
      } else {
        if i < |origin| {
          assert prefix[i] == origin[i];
        } else if i < |dir| {
          assert prefix[i] == "/cv-npr/img/"[i - |origin|];
        } else {
          assert prefix[i] == name[i - |dir|];
        }
        assert prefix[i..i + 3][0] != ThumbnailMarker[0];
      }
    }
    assert FirstIndexOf(prefix, ThumbnailMarker).None?;
    assert stem + ThumbnailMarker + ".webp" == origin + "/cv-npr/img/" + name + "-64.webp";
    assert stem + ".webp" == origin + "/cv-npr/img/" + name + ".webp";
    ExampleUrlDropsMarker(stem, ".webp");
  }
}

=== FILE: opencv_build.dfy ===
/** The choice among the four prebuilt OpenCV.js variants, made from what
    the host's WebAssembly supports (`getOpenCVPath`, identical in the page
    script and in the service worker), and the path of the `.wasm` file
    that goes with a script. */
module OpenCVBuild {

  /** The prebuilt variants, named by their directory. */
  datatype Build = Wasm | Simd | Threads | ThreadedSimd

  /** Threads count only in a cross-origin isolated context; the threads
      probe is not even consulted otherwise. */
  predicate ThreadsSupport(crossOriginIsolated: bool, threadsProbe: bool)
  {
    crossOriginIsolated && threadsProbe
  }

  /** The decision table of `getOpenCVPath`. */
  function ChooseBuild(simd: bool, crossOriginIsolated: bool, threadsProbe: bool): (b: Build)
    ensures b == ThreadedSimd <==> simd && ThreadsSupport(crossOriginIsolated, threadsProbe)
    ensures b == Simd <==> simd && !ThreadsSupport(crossOriginIsolated, threadsProbe)
    ensures b == Threads <==> !simd && ThreadsSupport(crossOriginIsolated, threadsProbe)
    ensures b == Wasm <==> !simd && !ThreadsSupport(crossOriginIsolated, threadsProbe)
  {
    var threads := ThreadsSupport(crossOriginIsolated, threadsProbe);
    if simd && threads then ThreadedSimd
    else if simd then Simd
    else if threads then Threads
    else Wasm
  }

  /** The directory of a variant. */
  function Directory(b: Build): string
  {
    match b
    case Wasm => "wasm"
    case Simd => "simd"
    case Threads => "threads"
    case ThreadedSimd => "threaded-simd"
  }

  /** The script of a variant: under `/cv-npr/opencv/`, in the variant's
      directory, named `opencv_js.js`. */
  function ScriptPath(b: Build): (path: string)
    ensures |path| > 28
    ensures path[..15] == "/cv-npr/opencv/"
    ensures path[|path| - 13..] == "/opencv_js.js"
  {
    "/cv-npr/opencv/" + Directory(b) + "/opencv_js.js"
  }

  /** The script `getOpenCVPath` resolves to. */
  function OpenCVPath(simd: bool, crossOriginIsolated: bool, threadsProbe: bool): string
  {
    ScriptPath(ChooseBuild(simd, crossOriginIsolated, threadsProbe))
  }

  /** `path.slice(0, -3) + ".wasm"`: the last three characters are replaced
      (a path shorter than three characters leaves nothing before ".wasm"). */
  function WasmPath(path: string): (r: string)
    ensures |path| >= 3 ==> |r| == |path| + 2 && r[..|path| - 3] == path[..|path| - 3]
    ensures |r| >= 5 && r[|r| - 5..] == ".wasm"
  {
    (if |path| >= 3 then path[..|path| - 3] else "") + ".wasm"
  }

  /** Every variant's script ends in `.js`, so its `.wasm` sibling sits in
      the same directory under the same base name. */
  lemma WasmBesideScript(b: Build)
    ensures ScriptPath(b)[|ScriptPath(b)| - 3..] == ".js"
    ensures WasmPath(ScriptPath(b)) == "/cv-npr/opencv/" + Directory(b) + "/opencv_js.wasm"
  {
    var dir := "/cv-npr/opencv/" + Directory(b) + "/opencv_js";
    assert ScriptPath(b) == dir + ".js";
    assert ScriptPath(b)[..|ScriptPath(b)| - 3] == dir;
  }
}

=== FILE: panels.dfy ===
/** The two panels of the page. The load panel turns a picked, dropped or
    pasted file, a clipboard read or a click on a bundled example into one
    `loadImage` call; the filter panel owns the original and working
    canvases, the filter selection, the range inputs and the callbacks the
    page defers with `setTimeout(…, 0)`. */
module Panels {
  import opened Imaging
  import opened Filters
  import opened MediaTypes
  import opened Wrappers

  /** A blob handed out by the host: a picked or dropped file, or one
      representation of a clipboard item. */
  datatype Blob = Blob(id: nat, mediaType: string)

  /** A URL given to `loadImage`: an object URL made for a blob, or the
      address of a bundled example. */
  datatype Url = ObjectUrl(blob: Blob) | Address(href: string)

  /** An element `setCanvas` can draw from. */
  datatype Drawable =
    | ImageElement(natural: Raster, width: nat, height: nat) // an `img`: its decoded bitmap and its layout size
    | CanvasElement(bitmap: Raster)

  /** The pixels `drawImage(source, 0, 0)` puts on a freshly sized canvas. */
  function Bitmap(d: Drawable): Raster
  {
    match d
    case ImageElement(natural, _, _) => natural
    case CanvasElement(bitmap) => bitmap
  }

  /** One representation list of the first clipboard item, the item's
      identity (its blobs are `Blob(id, type)`), and the types whose
      `getType` the host rejects. */
  datatype ClipboardItem = ClipboardItem(id: nat, types: seq<string>, unreadable: set<string>)

  /** What `navigator.clipboard.read()` delivers: a refusal (the promise
      rejects) or the list of items. */
  datatype ClipboardRead = Denied | Granted(items: seq<ClipboardItem>)

  /** A callback deferred with `setTimeout(…, 0)`. */
  datatype Task =
    | ApplyCurrent               // `this.currentFilter.apply()`: the filter is looked up when it runs
    | ApplyFilter(f: FilterKind) // the filter captured when an image finished loading

  /** A range input, named by its filter and its class name. */
  datatype Knob = Knob(filter: FilterKind, name: string)

  /** A range input's current value and the default its reset button
      restores (`dataset.value`). */
  datatype Slider = Slider(value: real, reset: real)

  /** Every filter's inputs are present, and the mosaic's block size is
      positive both as set and as restored by its reset button. */
  predicate SlidersReady(sliders: map<Knob, Slider>)
  {
    && (forall f, n :: n in Inputs(f) ==> Knob(f, n) in sliders)
    && (Knob(Mosaic, "dsize") in sliders ==>
          sliders[Knob(Mosaic, "dsize")].value > 0.0 && sliders[Knob(Mosaic, "dsize")].reset > 0.0)
  }

  /** The values a filter reads from its inputs. */
  function ParamsOf(sliders: map<Knob, Slider>, f: FilterKind): (p: Params)
    requires SlidersReady(sliders)
    ensures Admissible(f, p)
    ensures forall n :: n in Inputs(f) ==> Arg(p, n) == sliders[Knob(f, n)].value
  {
    map n | n in Inputs(f) :: sliders[Knob(f, n)].value
  }

  /** Which filter a deferred callback applies, given the current one. */
  function Target(t: Task, current: FilterKind): FilterKind
  {
    match t
    case ApplyCurrent => current
    case ApplyFilter(f) => f
  }

  class FilterPanel {
    /** The loaded vision library. */
    const cv: Vision
    /** The values of the filter select's options, in order. */
    const options: seq<FilterKind>

    var visible: bool
    /** The working canvas, shown and exported. */
    var canvas: Raster
    /** The original canvas, written only by `setCanvas`. */
    var originalCanvas: Raster
    var selectedIndex: nat
    var currentFilter: FilterKind
    /** The filters whose parameter region is shown. */
    var shownRegions: set<FilterKind>
    var sliders: map<Knob, Slider>
    /** The deferred callbacks not yet run, oldest first. */
    var tasks: seq<Task>

    /** Both canvases have the same size, the selected option is the current
        filter, exactly its region is shown, and the inputs are ready. */
    ghost predicate Valid()
      reads this
    {
      && cv.Valid()
      && SameSize(canvas, originalCanvas)
      && selectedIndex < |options|
      && options[selectedIndex] == currentFilter
      && shownRegions == {currentFilter}
      && SlidersReady(sliders)
    }

    /** The panel as the page builds it: option 0 selected, the detail
        enhancement filter current and its region the only one shown, both
        canvases blank and of one size, nothing deferred. */
    constructor (cv: Vision, options: seq<FilterKind>, blank: Raster, sliders: map<Knob, Slider>)
      requires cv.Valid() && |options| > 0 && options[0] == DetailEnhance
      requires SlidersReady(sliders)
      ensures Valid()
      ensures this.cv == cv && this.options == options && this.sliders == sliders
      ensures !visible && canvas == blank && originalCanvas == blank
      ensures selectedIndex == 0 && currentFilter == DetailEnhance && tasks == []
    {
      this.cv := cv;
      this.options := options;
      this.sliders := sliders;
      visible := false;
      canvas := blank;
      originalCanvas := blank;
      selectedIndex := 0;
      currentFilter := DetailEnhance;
      shownRegions := {DetailEnhance};
      tasks := [];
    }

    /** `setCanvas`: both canvases take the source's intrinsic size (an
        image's natural size, otherwise the element's own size) and its
        pixels. Resizing a canvas clears it, so the drawing reproduces the
        source exactly. */
    method SetCanvas(source: Drawable)
      requires Valid()
      modifies this`canvas, this`originalCanvas
      ensures Valid()
      ensures canvas == Bitmap(source) && originalCanvas == Bitmap(source)
      ensures source.ImageElement? ==> canvas.width == source.natural.width && canvas.height == source.natural.height
    {
      var bitmap := Bitmap(source);
      canvas := bitmap;
      originalCanvas := bitmap;
    }

    /** One filter's apply method (`detailEnhance`, …, `mosaic`): it reads its
        inputs, copies the original canvas when they are neutral and otherwise
        runs the library on the original canvas; either way it writes the
        working canvas only. */
    method Apply(f: FilterKind)
      requires Valid()
      modifies this`canvas
      ensures Valid()
      ensures canvas == Output(cv, f, ParamsOf(sliders, f), originalCanvas)
      ensures IsNeutral(f, ParamsOf(sliders, f)) ==> canvas == originalCanvas
    {
      var p := ParamsOf(sliders, f);
      if IsNeutral(f, p) {
        canvas := originalCanvas;
      } else {
        canvas := Render(cv, f, p, originalCanvas);
      }
    }

    /** Defers a callback. */
    method Schedule(t: Task)
      modifies this`tasks
      ensures tasks == old(tasks) + [t]
    {
      tasks := tasks + [t];
    }

    /** The event loop runs the oldest deferred callback. */
    method RunTask()
      requires Valid() && tasks != []
      modifies this`canvas, this`tasks
      ensures Valid()
      ensures tasks == old(tasks)[1..]
      ensures var f := Target(old(tasks)[0], currentFilter);
              canvas == Output(cv, f, ParamsOf(sliders, f), originalCanvas)
    {
      var t := tasks[0];
      tasks := tasks[1..];
      Apply(Target(t, currentFilter));
    }

    /** `filterSelectEvent`: hides the previous option's region, shows the new
        one's, makes its filter current and defers one apply. */
    method FilterSelectEvent(newIndex: nat)
      requires Valid() && newIndex < |options|
      modifies this`selectedIndex, this`currentFilter, this`shownRegions, this`tasks
      ensures Valid()
      ensures shownRegions == old(shownRegions) - {options[old(selectedIndex)]} + {options[newIndex]}
      ensures selectedIndex == newIndex && currentFilter == options[newIndex]
      ensures tasks == old(tasks) + [ApplyCurrent]
    {
      var prevClass := options[selectedIndex];
      var currClass := options[newIndex];
      shownRegions := shownRegions - {prevClass};
      shownRegions := shownRegions + {currClass};
      selectedIndex := newIndex;
      currentFilter := currClass;
      Schedule(ApplyCurrent);
    }

    /** The `input` listener of a range input: the new value is kept and one
        apply of the current filter is deferred. */
    method InputEvent(knob: Knob, value: real)
      requires Valid() && knob in sliders
      requires knob == Knob(Mosaic, "dsize") ==> value > 0.0
      modifies this`sliders, this`tasks
      ensures Valid()
      ensures sliders == old(sliders)[knob := Slider(value, old(sliders)[knob].reset)]
      ensures tasks == old(tasks) + [ApplyCurrent]
    {
      sliders := sliders[knob := Slider(value, sliders[knob].reset)];
      Schedule(ApplyCurrent);
    }

    /** A reset button: its range input gets back its default and an `input`
        event is dispatched, which defers one apply. */
    method ResetClick(knob: Knob)
      requires Valid() && knob in sliders
      modifies this`sliders, this`tasks
      ensures Valid()
      ensures knob in sliders && sliders[knob].value == sliders[knob].reset
      ensures sliders == old(sliders)[knob := Slider(old(sliders)[knob].reset, old(sliders)[knob].reset)]
      ensures tasks == old(tasks) + [ApplyCurrent]
    {
      InputEvent(knob, sliders[knob].reset);
    }

    /** `moveLoadPanel`: the filter panel is hidden and the load panel shown. */
    method MoveLoadPanel(loadPanel: LoadPanel)
      requires loadPanel.filterPanel == this
      modifies this`visible, loadPanel`visible
      ensures !visible && loadPanel.visible
      ensures loadPanel.OneVisible()
    {
      visible := false;
      loadPanel.visible := true;
    }
  }

  /** Selecting filter `a`, then `b`, then `a` again, running each deferred
      apply, leaves the working canvas as selecting `a` alone would: no
      filter builds on another's output. */
  method SelectionLeavesNoResidue(panel: FilterPanel, a: nat, b: nat)
    requires panel.Valid() && panel.tasks == []
    requires a < |panel.options| && b < |panel.options|
    modifies panel
    ensures panel.Valid() && panel.tasks == []
    ensures panel.sliders == old(panel.sliders) && panel.originalCanvas == old(panel.originalCanvas)
    ensures var f := panel.options[a];
            panel.canvas == Output(panel.cv, f, ParamsOf(panel.sliders, f), panel.originalCanvas)
  {
    panel.FilterSelectEvent(a);
    panel.RunTask();
    panel.FilterSelectEvent(b);
    panel.RunTask();
    panel.FilterSelectEvent(a);
    panel.RunTask();
  }

  class LoadPanel {
    /** The page's one filter panel. */
    const filterPanel: FilterPanel

    var visible: bool
    /** The messages passed to `alert`, oldest first. */
    var alerts: seq<string>
    /** The number of errors passed to `console.error`. */
    var errorsLogged: nat
    /** The URLs `loadImage` has started decoding, oldest first. */
    var requested: seq<Url>

    /** Exactly one of the two panels is visible. */
    ghost predicate OneVisible()
      reads this, filterPanel
    {
      visible != filterPanel.visible
    }

    /** The panel as the page shows it first: visible, beside a hidden
        filter panel. */
    constructor (filterPanel: FilterPanel)
      requires !filterPanel.visible
      ensures this.filterPanel == filterPanel
      ensures visible && alerts == [] && errorsLogged == 0 && requested == []
      ensures OneVisible()
    {
      this.filterPanel := filterPanel;
      visible := true;
      alerts := [];
      errorsLogged := 0;
      requested := [];
    }

    /** `loadImage`: the load panel is hidden and the filter panel shown
        before the image decodes; the decode of `url` is started. */
    method LoadImage(url: Url)
      modifies this`visible, this`requested, filterPanel`visible
      ensures !visible && filterPanel.visible && OneVisible()
      ensures requested == old(requested) + [url]
    {
      visible := false;
      filterPanel.visible := true;
      requested := requested + [url];
    }

    /** `handleImageOnloadEvent`: the decoded image goes into both canvases
        and one apply of the filter current at this moment is deferred. */
    method HandleImageOnload(image: Drawable)
      requires filterPanel.Valid()
      modifies filterPanel`canvas, filterPanel`originalCanvas, filterPanel`tasks
      ensures filterPanel.Valid()
      ensures filterPanel.canvas == Bitmap(image) && filterPanel.originalCanvas == Bitmap(image)
      ensures filterPanel.tasks == old(filterPanel.tasks) + [ApplyFilter(filterPanel.currentFilter)]
    {
      filterPanel.SetCanvas(image);
      var filter := filterPanel.currentFilter;
      filterPanel.Schedule(ApplyFilter(filter));
    }

    /** `loadFile`: a non-image type is ignored silently, the SVG type raises
        one alert, and any other image type is loaded once. */
    method LoadFile(file: Blob)
      modifies this`visible, this`alerts, this`requested, filterPanel`visible
      ensures alerts == old(alerts) + (if ClassifyFile(file.mediaType) == RejectSvg then [SvgAlert] else [])
      ensures requested == old(requested) + (if ClassifyFile(file.mediaType) == Accept then [ObjectUrl(file)] else [])
      ensures ClassifyFile(file.mediaType) == Accept ==> !visible && filterPanel.visible
      ensures ClassifyFile(file.mediaType) != Accept ==>
                visible == old(visible) && filterPanel.visible == old(filterPanel.visible)
      ensures old(OneVisible()) ==> OneVisible()
    {
      if !StartsWith(file.mediaType, ImagePrefix) {
        return;
      }
      if file.mediaType == Svg {
        alerts := alerts + [SvgAlert];
        return;
      }
      LoadImage(ObjectUrl(file));
    }

    /** The window's `drop` handler: the first dropped file goes to
        `loadFile`. With no file, reading its type throws and the handler
        stops having changed nothing. */
    method DropEvent(files: seq<Blob>)
      modifies this`visible, this`alerts, this`requested, filterPanel`visible
      ensures files == [] ==>
                alerts == old(alerts) && requested == old(requested)
                && visible == old(visible) && filterPanel.visible == old(filterPanel.visible)
      ensures files != [] ==>
                && alerts == old(alerts) + (if ClassifyFile(files[0].mediaType) == RejectSvg then [SvgAlert] else [])
                && requested == old(requested) + (if ClassifyFile(files[0].mediaType) == Accept then [ObjectUrl(files[0])] else [])
      ensures files != [] && ClassifyFile(files[0].mediaType) == Accept ==> !visible && filterPanel.visible
      ensures files != [] && ClassifyFile(files[0].mediaType) != Accept ==>
                visible == old(visible) && filterPanel.visible == old(filterPanel.visible)
      ensures old(OneVisible()) ==> OneVisible()
    {
      if files != [] {
        LoadFile(files[0]);
      }
    }

    /** The window's `paste` handler: the first pasted item, when it is a
        file, goes to `loadFile`; an item that is not a file is ignored, and
        with no item at all the handler throws having changed nothing. */
    method PasteEvent(items: seq<Option<Blob>>)
      modifies this`visible, this`alerts, this`requested, filterPanel`visible
      ensures items == [] || items[0].None? ==>
                alerts == old(alerts) && requested == old(requested)
                && visible == old(visible) && filterPanel.visible == old(filterPanel.visible)
      ensures items != [] && items[0].Some? ==>
                var file := items[0].value;
                && alerts == old(alerts) + (if ClassifyFile(file.mediaType) == RejectSvg then [SvgAlert] else [])
                && requested == old(requested) + (if ClassifyFile(file.mediaType) == Accept then [ObjectUrl(file)] else [])
      ensures items != [] && items[0].Some? && ClassifyFile(items[0].value.mediaType) == Accept ==>
                !visible && filterPanel.visible
      ensures items != [] && items[0].Some? && ClassifyFile(items[0].value.mediaType) != Accept ==>
                visible == old(visible) && filterPanel.visible == old(filterPanel.visible)
      ensures old(OneVisible()) ==> OneVisible()
    {
      if items == [] {
        return;
      }
      match items[0] {
        case None =>
        case Some(file) => LoadFile(file);
      }
    }

    /** A click on a bundled example loads its full-size image. */
    method ExampleClick(thumbnail: string)
      modifies this`visible, this`requested, filterPanel`visible
      ensures !visible && filterPanel.visible && OneVisible()
      ensures requested == old(requested) + [Address(ExampleFullUrl(thumbnail))]
    {
      var url := ReplaceFirst(thumbnail, ThumbnailMarker, "");
      LoadImage(Address(url));
    }

    /** `loadClipboardImage`: the types of the first clipboard item are scanned
        in order; each SVG type raises an alert, and the first other image
        type ends the scan: its blob is loaded, or, when `getType` rejects,
        the error is logged and nothing is loaded. A refused read or an empty
        clipboard is logged and changes nothing else. */
    method LoadClipboardImage(read: ClipboardRead)
      modifies this`visible, this`alerts, this`requested, this`errorsLogged, filterPanel`visible
      ensures read.Denied? || read.items == [] ==>
                errorsLogged == old(errorsLogged) + 1 && alerts == old(alerts) && requested == old(requested)
                && visible == old(visible) && filterPanel.visible == old(filterPanel.visible)
      ensures read.Granted? && read.items != [] ==>
                var item := read.items[0];
                var pick := FirstRaster(item.types);
                var stop := if pick.Some? then pick.value else |item.types|;
                var loaded := pick.Some? && item.types[stop] !in item.unreadable;
                && alerts == old(alerts) + SvgAlerts(SvgCount(item.types[..stop]))
                && errorsLogged == old(errorsLogged) + (if pick.Some? && !loaded then 1 else 0)
                && requested == old(requested) + (if loaded then [ObjectUrl(Blob(item.id, item.types[stop]))] else [])
                && (loaded ==> !visible && filterPanel.visible)
                && (!loaded ==> visible == old(visible) && filterPanel.visible == old(filterPanel.visible))
      ensures old(OneVisible()) ==> OneVisible()
    {
      if read.Denied? || read.items == [] {
        // the rejected read, or reading `types` of a missing item, is caught
        errorsLogged := errorsLogged + 1;
        return;
      }
      var item := read.items[0];
      var types := item.types;
      var i := 0;
      while i < |types|
        invariant 0 <= i <= |types|
        invariant forall j :: 0 <= j < i ==> !IsRaster(types[j])
        invariant alerts == old(alerts) + SvgAlerts(SvgCount(types[..i]))
        invariant requested == old(requested) && errorsLogged == old(errorsLogged)
        invariant visible == old(visible) && filterPanel.visible == old(filterPanel.visible)
      {
        var mediaType := types[i];
        assert types[..i + 1][..i] == types[..i];
        if mediaType == Svg {
          alerts := alerts + [SvgAlert];
        } else if StartsWith(mediaType, ImagePrefix) {
          assert IsRaster(mediaType);
          FirstRasterAt(types, i);
          if mediaType in item.unreadable {
            // the rejected `getType` is caught before any URL is made
            errorsLogged := errorsLogged + 1;
          } else {
            LoadImage(ObjectUrl(Blob(item.id, mediaType)));
          }
          break;
        }
        i := i + 1;
      }
      if i == |types| {
        assert types[..i] == types;
      }
    }
  }
}

=== FILE: service_worker.dfy ===
/** The service worker's offline cache: the manifest of URLs it stores at
    install time (extended with the OpenCV build the host can run), the
    stale caches it deletes on activation, and the cache-or-network choice
    it makes for every fetch. The cache storage is a value; the worker's
    `caches` and `fetch` I/O is replaced by these functions of it. */
module ServiceWorker {
  import opened Wrappers
  import opened OpenCVBuild

  /** The name of the current cache; a new release changes it. */
  const CacheName: string := "2025-02-24 00:00"

  /** The manifest before the OpenCV build is known. */
  const StaticUrls: seq<string> := [
    "/cv-npr/",
    "/cv-npr/en/",
    "/cv-npr/coi-serviceworker.js",
    "/cv-npr/index.js",
    "/cv-npr/img/before.webp",
    "/cv-npr/img/after.webp",
    "/cv-npr/img/anime-64.webp",
    "/cv-npr/img/car-64.webp",
    "/cv-npr/img/cat-64.webp",
    "/cv-npr/img/castle-64.webp",
    "/cv-npr/favicon/favicon.svg",
    "https://cdn.jsdelivr.net/npm/wasm-feature-detect@1.8.0/dist/umd/index.min.js"
  ]

  /** A response as the network returned it; its contents are not modelled. */
  datatype Response = Response(url: string, body: seq<int>)

  /** One named cache: request URL to stored response. */
  type Cache = map<string, Response>

  /** All caches of the origin, by name. */
  type CacheStorage = map<string, Cache>

  /** The worker's module-level manifest, which `addOpenCVPaths` extends in
      place. */
  class Manifest {
    var urlsToCache: seq<string>

    constructor()
      ensures urlsToCache == StaticUrls
    {
      urlsToCache := StaticUrls;
    }

    /** `addOpenCVPaths`: the chosen build's script and then its `.wasm`
        sibling are pushed after the entries already there. */
    method AddOpenCVPaths(simd: bool, crossOriginIsolated: bool, threadsProbe: bool)
      modifies this`urlsToCache
      ensures var path := OpenCVPath(simd, crossOriginIsolated, threadsProbe);
              urlsToCache == old(urlsToCache) + [path, WasmPath(path)]
    {
      var opencvPath := OpenCVPath(simd, crossOriginIsolated, threadsProbe);
      urlsToCache := urlsToCache + [opencvPath];
      urlsToCache := urlsToCache + [WasmPath(opencvPath)];
    }
  }

  /** After `addOpenCVPaths`, the manifest is the static list followed by the
      script of the chosen build and the `.wasm` file in its directory. */
  lemma ManifestAfterAddition(simd: bool, crossOriginIsolated: bool, threadsProbe: bool)
    ensures var b := ChooseBuild(simd, crossOriginIsolated, threadsProbe);
            var path := OpenCVPath(simd, crossOriginIsolated, threadsProbe);
            var urls := StaticUrls + [path, WasmPath(path)];
            && |urls| == |StaticUrls| + 2
            && urls[|StaticUrls|] == "/cv-npr/opencv/" + Directory(b) + "/opencv_js.js"
            && urls[|StaticUrls| + 1] == "/cv-npr/opencv/" + Directory(b) + "/opencv_js.wasm"
  {
    WasmBesideScript(ChooseBuild(simd, crossOriginIsolated, threadsProbe));
  }

  /** `cache.addAll(urls)`: every URL is fetched and stored, replacing what
      the cache held for it; the other entries stay. */
  function AddAll(cache: Cache, urls: seq<string>, network: string -> Response): (r: Cache)
    ensures r.Keys == cache.Keys + (set u | u in urls)
    ensures forall u :: u in urls ==> r[u] == network(u)
    ensures forall u :: u in cache && u !in urls ==> r[u] == cache[u]
  {
    map u | u in cache.Keys + (set v | v in urls) :: if u in urls then network(u) else cache[u]
  }

  /** The `install` handler: `caches.open(CACHE_NAME)` (created empty when
      missing) and then `addAll` of the manifest. Other caches are left. */
  function Install(storage: CacheStorage, urls: seq<string>, network: string -> Response): (r: CacheStorage)
    ensures r.Keys == storage.Keys + {CacheName}
    ensures forall u :: u in urls ==> u in r[CacheName] && r[CacheName][u] == network(u)
    ensures forall n :: n in storage && n != CacheName ==> r[n] == storage[n]
  {
    var current := if CacheName in storage then storage[CacheName] else map[];
    storage[CacheName := AddAll(current, urls, network)]
  }

  /** The cache names the `activate` handler deletes: those of `names`
      (as `caches.keys()` lists them) that differ from the current name. */
  function StaleCaches(names: seq<string>): (r: seq<string>)
    ensures |r| <= |names|
    ensures forall i :: 0 <= i < |r| ==> r[i] in names && r[i] != CacheName
  {
    if names == [] then []
    else (if names[0] != CacheName then [names[0]] else []) + StaleCaches(names[1..])
  }

  /** A name is deleted exactly when it is listed and is not the current
      cache's; the current cache is never deleted. */
  lemma {:induction false} StaleCachesExactly(names: seq<string>)
    ensures forall n :: n in StaleCaches(names) <==> n in names && n != CacheName
    ensures CacheName !in StaleCaches(names)
  {
    if names != [] {
      StaleCachesExactly(names[1..]);
      assert names == [names[0]] + names[1..];
    }
  }

  /** When only old caches are listed, all of them are deleted, in order. */
  lemma {:induction false} StaleCachesWithoutCurrent(names: seq<string>)
    requires CacheName !in names
    ensures StaleCaches(names) == names
  {
    if names != [] {
      StaleCachesWithoutCurrent(names[1..]);
    }
  }

  /** The storage after every stale cache is deleted. */
  function Activate(storage: CacheStorage, names: seq<string>): (r: CacheStorage)
    ensures r.Keys == storage.Keys - (set n | n in StaleCaches(names))
    ensures forall n :: n in r ==> r[n] == storage[n]
  {
    storage - (set n | n in StaleCaches(names))
  }

  /** When `names` are the storage's keys, activation leaves at most the
      current cache, untouched. */
  lemma ActivateKeepsOnlyCurrent(storage: CacheStorage, names: seq<string>)
    requires forall n :: n in storage <==> n in names
    ensures Activate(storage, names).Keys <= {CacheName}
    ensures CacheName in storage ==> Activate(storage, names) == map[CacheName := storage[CacheName]]
  {
    StaleCachesExactly(names);
    var r := Activate(storage, names);
    if CacheName in storage {
      assert r.Keys == {CacheName};
    }
  }

  /** `caches.match(url)`: the response of the first cache, in the order
      `names` lists them, that holds the URL. */
  function Match(storage: CacheStorage, names: seq<string>, url: string): (r: Option<Response>)
    ensures r.Some? ==> exists k ::
              && 0 <= k < |names| && names[k] in storage && url in storage[names[k]]
              && r.value == storage[names[k]][url]
              && forall j :: 0 <= j < k ==> !(names[j] in storage && url in storage[names[j]])
    ensures r.None? ==> forall n :: n in names && n in storage ==> url !in storage[n]
  {
    if names == [] then None
    else if names[0] in storage && url in storage[names[0]] then Some(storage[names[0]][url])
    else Match(storage, names[1..], url)
  }

  /** Where the `fetch` handler's response comes from. */
  datatype FetchResult = FromCache(response: Response) | FromNetwork(url: string)

  /** `response || fetch(event.request)`: a cached response when one
      matched, the network otherwise. */
  function Respond(cached: Option<Response>, url: string): (r: FetchResult)
    ensures r.FromNetwork? <==> cached.None?
    ensures r.FromNetwork? ==> r.url == url
    ensures cached.Some? ==> r == FromCache(cached.value)
  {
    match cached
    case Some(response) => FromCache(response)
    case None => FromNetwork(url)
  }

  /** The worker's lifecycle end to end: install into the current cache,
      then activate, deleting every other cache listed. Afterwards every
      manifest URL is answered from the cache, with the response the network
      gave at install time, and no request for it reaches the network. */
  lemma {:induction false} ManifestServedOffline(
    storage: CacheStorage, urls: seq<string>, network: string -> Response, names: seq<string>, url: string)
    requires forall n :: n in Install(storage, urls, network) <==> n in names
    requires url in urls
    ensures var after := Activate(Install(storage, urls, network), names);
            Respond(Match(after, names, url), url) == FromCache(network(url))
  {
    var installed := Install(storage, urls, network);
    var after := Activate(installed, names);
    ActivateKeepsOnlyCurrent(installed, names);
    assert after == map[CacheName := installed[CacheName]];
    MatchOnlyCache(after, names, url);
  }

  /** In a storage holding a single cache, `match` answers from that cache
      whenever its name is listed. */
  lemma {:induction false} MatchOnlyCache(storage: CacheStorage, names: seq<string>, url: string)
    requires storage.Keys == {CacheName} && url in storage[CacheName]
    requires CacheName in names
    ensures Match(storage, names, url) == Some(storage[CacheName][url])
  {
    if names[0] != CacheName {
      MatchOnlyCache(storage, names[1..], url);
    }
  }
}

=== FILE: viewport.dfy ===
/** Where an image of a given natural size actually appears inside a
    container that letterboxes it (`Panel.getActualRect`). Sizes are
    modelled as exact reals, an idealisation of JavaScript doubles. */
module Viewport {

  /** The rectangle returned by `getActualRect`, in container coordinates. */
  datatype Rect = Rect(width: real, height: real, top: real, left: real, right: real, bottom: real)

  /** True when the container is relatively wider than the image, i.e.
      `canvasWidth / canvasHeight > naturalWidth / naturalHeight`, written
      without division. */
  predicate ContainerWider(canvasWidth: real, canvasHeight: real, naturalWidth: real, naturalHeight: real)
  {
    canvasWidth * naturalHeight > naturalWidth * canvasHeight
  }

  /** The letterboxed sub-rectangle: the image is scaled to touch two
      opposite sides of the container and centred along the other axis. */
  function ActualRect(canvasWidth: real, canvasHeight: real, naturalWidth: real, naturalHeight: real): (r: Rect)
    requires canvasWidth > 0.0 && canvasHeight > 0.0
    requires naturalWidth > 0.0 && naturalHeight > 0.0
    // it fits inside the container
    ensures 0.0 < r.width <= canvasWidth && 0.0 < r.height <= canvasHeight
    ensures 0.0 <= r.left && r.right <= canvasWidth && 0.0 <= r.top && r.bottom <= canvasHeight
    // it is a rectangle of the stated size
    ensures r.right - r.left == r.width && r.bottom - r.top == r.height
    // it keeps the natural aspect ratio
    ensures r.width * naturalHeight == r.height * naturalWidth
    // it is centred
    ensures r.left + r.right == canvasWidth && r.top + r.bottom == canvasHeight
    // it fills the container along the constraining axis
    ensures ContainerWider(canvasWidth, canvasHeight, naturalWidth, naturalHeight) ==> r.height == canvasHeight && r.top == 0.0
    ensures !ContainerWider(canvasWidth, canvasHeight, naturalWidth, naturalHeight) ==> r.width == canvasWidth && r.left == 0.0
  {
    var aspectRatio := naturalWidth / naturalHeight;
    if canvasWidth / canvasHeight > aspectRatio then
      var width := canvasHeight * aspectRatio;
      var left := (canvasWidth - width) / 2.0;
      Rect(width, canvasHeight, 0.0, left, left + width, canvasHeight)
    else
      var height := canvasWidth / aspectRatio;
      var top := (canvasHeight - height) / 2.0;
      Rect(canvasWidth, height, top, 0.0, canvasWidth, top + height)
  }

  /** The letterbox is the largest copy of the image, at its natural aspect
      ratio, that fits the container: any scale factor whose scaled image
      fits gives a width no larger than the one returned. */
  lemma ActualRectIsLargestFit(canvasWidth: real, canvasHeight: real, naturalWidth: real, naturalHeight: real, scale: real)
    requires canvasWidth > 0.0 && canvasHeight > 0.0
    requires naturalWidth > 0.0 && naturalHeight > 0.0
    requires scale > 0.0 && naturalWidth * scale <= canvasWidth && naturalHeight * scale <= canvasHeight
    ensures naturalWidth * scale <= ActualRect(canvasWidth, canvasHeight, naturalWidth, naturalHeight).width
    ensures naturalHeight * scale <= ActualRect(canvasWidth, canvasHeight, naturalWidth, naturalHeight).height
  {
    var r := ActualRect(canvasWidth, canvasHeight, naturalWidth, naturalHeight);
    if ContainerWider(canvasWidth, canvasHeight, naturalWidth, naturalHeight) {
      // the height is the container's, and the width follows from the ratio
      assert r.width * naturalHeight == canvasHeight * naturalWidth;
      assert naturalWidth * scale * naturalHeight <= canvasHeight * naturalWidth;
    } else {
      assert r.height * naturalWidth == canvasWidth * naturalHeight;
      assert naturalHeight * scale * naturalWidth <= canvasWidth * naturalHeight;
    }
  }
}

=== FILE: wrappers.dfy ===
/** The optional value shared by the other modules. */
module Wrappers {

  datatype Option<T> = None | Some(value: T)
}
